=== FILE: README.md ===
# EnglesSoft evaluation and progress model

A Dafny model of the evaluation-scoring and progress-cycle workflow of
EnglesSoft, an English-proficiency tracker for students (aprendices). The
database is replaced by an in-memory `Store` holding these parts:

- the `evaluaciones` table, as a sequence of `Evaluation` rows;
- the `progreso_estudiante` table, as a sequence of `ProgressRecord` rows;
- the read-only `niveles_ingles` table, as a sequence of `Level(code, min, max)` rows;
- the auto-increment counters that hand out `id_evaluacion` and `id_progreso`.

The modules follow the source:

- `Scoring`: the total score (`puntaje_total`). It is the rounded average of
  the four sub-scores, and a missing sub-score counts as 0. For an integer sum
  `s`, JavaScript's `Math.round(s / 4)` is `(s + 2) / 4` with floor division.
  `TotalIsRoundedAverage` proves this against a real-valued `floor(x + 0.5)`.
- `Levels`: `determinarNivel`. The level is the code of the first level row
  whose inclusive range contains the score. It falls back to `"A1"` when the
  query fails, when no row matches, or when the code is empty.
- `Records`: the datatypes and the store invariant `Valid`. Ids are increasing
  and below the next id. The closing fields of a progress record are set
  together. Every record refers to an evaluation id already handed out.
- `ProgressTracker`: `crearProgreso` opens a cycle. `actualizarProgreso` closes
  the student's open record with the largest `id_progreso` and stores
  `mejora = final total − initial total`. It fails when no record is open. It
  also fails when the cycle's initial evaluation row is gone: the source then
  reads a field of `undefined` and throws.
- `Evaluations`: `crearEvaluacion` and `eliminar`. An `'inicial'` evaluation
  opens a cycle, and a failure there is swallowed. A `'final'` evaluation closes
  one, and a failure there fails the call. The inserted evaluation row stays
  either way, because nothing is rolled back. Any other type leaves progress
  alone. The database failures the code handles itself are a `Faults` parameter.
- `ProgressRoutes`: the read side of `RutasProgreso.js`. It covers the newest
  progress record of a student (or not-found), the `estado` label, the
  left-joined summary, four integer counts of the statistics
  (`totalEstudiantes`, `evaluacionesIniciales`, `evaluacionesFinales`,
  `progresosCompletos`), and the initial-versus-final comparison.
- `Workflow`: lemmas that tie the write side to the read side. One example:
  for a student with no history, one initial and one final evaluation complete
  a cycle. The cycle's `mejora` equals the comparison's total delta.

The state machine of a progress record is no-progress → open → closed. A
closed record never changes again (`ProgressTracker.Evolves`). A second
`'inicial'` evaluation while a cycle is open is not refused. It opens a second
cycle (`InitialEvaluationOpensOneCycle` counts it), and a later final closes
only the newest.

Where the behaviour could be read otherwise, the model follows the code:

- Level ranges are inclusive at both ends (`BETWEEN`), not half-open.
- The summary is a left join from users. So a user with no progress record at
  all is labelled `'En Progreso'`, because the final-evaluation id of the
  missing row is NULL.
- The comparison uses the *first* initial and the *first* final evaluation in
  table order. It does not use the ones linked by the newest cycle.

## Model

| member | source | states |
|---|---|---|
| Scoring.TotalScore | EnglesSoft-main/modelo/aprendiz/EvaluacionModelo.js:20-25 | The total is the integer nearest a quarter of the sub-score sum (missing counted as 0), ties rounding up: `4t − 2 <= sum < 4t + 2`. |
| Scoring.TotalIsRoundedAverage | EnglesSoft-main/modelo/aprendiz/EvaluacionModelo.js:20-25 | The integer total equals `Math.round(sum / 4)` taken over the reals, i.e. `floor(sum/4 + 0.5)`. |
| Scoring.TotalWithinBounds | EnglesSoft-main/modelo/aprendiz/EvaluacionModelo.js:20-25 | If every given sub-score is in [0,100], the total is in [0,100]. |
| Levels.DetermineLevel | EnglesSoft-main/modelo/aprendiz/EvaluacionModelo.js:67-78 | The level is never empty; it is "A1" when the lookup fails or no row covers the score; otherwise it is the code of the first covering row, or "A1" if that code is empty; any non-"A1" result is the code of a covering row. |
| Levels.LevelOfCoveringRow | EnglesSoft-main/modelo/aprendiz/EvaluacionModelo.js:67-73 | In a non-overlapping table, any row whose inclusive range contains the score and whose code is non-empty is the resolved level. |
| Levels.ExampleLevel | EnglesSoft-main/modelo/aprendiz/EvaluacionModelo.js:67-73 | With ranges A2 0–39, B1 40–69, B2 70–89, C1 90–100, a score of 75 resolves to B2. |
| Records.FindEvaluation | EnglesSoft-main/modelo/aprendiz/EvaluacionModelo.js:108-110 | Looking up an evaluation by id yields a row with that id, and yields nothing exactly when no row has that id. |
| Records.NewestWhere | EnglesSoft-main/modelo/aprendiz/EvaluacionModelo.js:97-100 | `ORDER BY id_progreso DESC LIMIT 1`: the chosen record is accepted and has the largest id among accepted records; none is chosen exactly when no record is accepted. |
| Records.NewestIsLast | EnglesSoft-main/modelo/aprendiz/EvaluacionModelo.js:97-100 | With increasing ids, no accepted record follows the chosen one in table order. |
| ProgressTracker.LatestOpen | EnglesSoft-main/modelo/aprendiz/EvaluacionModelo.js:97-105 | The record a final evaluation closes is the student's open record (no final id) with the greatest id; there is none exactly when the student has no open record. |
| ProgressTracker.OpenCycle | EnglesSoft-main/modelo/aprendiz/EvaluacionModelo.js:81-91 | Opening appends exactly one record with the next progress id, the student, the new evaluation as initial id and the resolved level, with final id, final level and improvement unset; a failed insert leaves the store unchanged and is not reported. |
| ProgressTracker.CloseWhereId | EnglesSoft-main/modelo/aprendiz/EvaluacionModelo.js:114-121 | The update closes every record carrying the given id (final id, final level, improvement) and leaves all others as they were. |
| ProgressTracker.CloseCycle | EnglesSoft-main/modelo/aprendiz/EvaluacionModelo.js:94-126 | Closing fails with "no open cycle" exactly when the student has no open record; it succeeds exactly when the student has an open record and the initial evaluation of the newest one is still in the table; on success the evaluations, levels, counters and the number of progress records are unchanged. |
| ProgressTracker.CloseWhereIdIsSingleUpdate | EnglesSoft-main/modelo/aprendiz/EvaluacionModelo.js:114-121 | With unique ids, updating by the id of one record changes that record alone. |
| ProgressTracker.CloseCycleClosesNewestOpen | EnglesSoft-main/modelo/aprendiz/EvaluacionModelo.js:97-121 | A successful close replaces only the student's newest open record, giving it the final id, final level and `mejora` = final total − total of its initial evaluation. |
| ProgressTracker.OpenCyclePreservesValid | EnglesSoft-main/modelo/aprendiz/EvaluacionModelo.js:81-91 | Opening a cycle keeps ids increasing and below the next id, and closing fields set together. |
| ProgressTracker.CloseCyclePreservesValid | EnglesSoft-main/modelo/aprendiz/EvaluacionModelo.js:114-121 | Closing a cycle keeps the store invariant. |
| ProgressTracker.OpenCycleAddsOpenCycle | EnglesSoft-main/modelo/aprendiz/EvaluacionModelo.js:81-91 | Opening follows the state machine, adds one open cycle for the student and leaves the completed count unchanged. |
| ProgressTracker.CloseCycleClosesOneCycle | EnglesSoft-main/modelo/aprendiz/EvaluacionModelo.js:97-121 | A successful close follows the state machine, removes one open cycle of the student and adds one completed cycle. |
| Evaluations.NewRow | EnglesSoft-main/modelo/aprendiz/EvaluacionModelo.js:35-45 | The stored row has the computed total and resolved level; omitted sub-scores are stored as 0 and omitted notes as "". |
| Evaluations.CreateEvaluation | EnglesSoft-main/modelo/aprendiz/EvaluacionModelo.js:7-64 | A failed insert fails the call and changes nothing; otherwise the row is appended under the next id whatever happens next; the result returns exactly that id, level and total; other types leave progress alone; an initial evaluation always succeeds and, unless its progress insert fails, appends exactly the record (next progress id, student, new evaluation id, resolved level as `nivel_inicial`, no final id, final level or `mejora`); a final evaluation fails with "no open cycle" exactly when the student had none, and succeeds exactly when the student has an open record whose newest one's initial evaluation row can be read; a failed call leaves progress unchanged. |
| Evaluations.FinalEvaluationWithOpenCycleSucceeds | EnglesSoft-main/modelo/aprendiz/EvaluacionModelo.js:94-121 | A final evaluation for a student whose newest open cycle still has its initial evaluation row succeeds (and `FinalEvaluationClosesNewestOpen` says which record it closes). |
| Evaluations.InsertPreservesValid | EnglesSoft-main/modelo/aprendiz/EvaluacionModelo.js:30-45 | Appending the new row under the next id keeps the store invariant. |
| Evaluations.CreatePreservesValid | EnglesSoft-main/modelo/aprendiz/EvaluacionModelo.js:47-52 | Creating any evaluation keeps the store invariant and moves progress records only along no-progress → open → closed. |
| Evaluations.InitialEvaluationOpensOneCycle | EnglesSoft-main/modelo/aprendiz/EvaluacionModelo.js:47-49 | An initial evaluation whose progress insert succeeds adds one open cycle for its student, even if one is already open, and completes none. |
| Evaluations.FinalEvaluationIsInsertThenClose | EnglesSoft-main/modelo/aprendiz/EvaluacionModelo.js:35-52 | A successful final evaluation is the row insert followed by a successful close on the store containing the new row. |
| Evaluations.FinalEvaluationCompletesOneCycle | EnglesSoft-main/modelo/aprendiz/EvaluacionModelo.js:93-126 | A successful final evaluation removes one open cycle of its student and adds one completed cycle, following the state machine. |
| Evaluations.FinalEvaluationClosesNewestOpen | EnglesSoft-main/modelo/aprendiz/EvaluacionModelo.js:96-121 | A successful final evaluation changes only the student's newest open record: final id = new evaluation id, final level = resolved level, `mejora` = new total − initial total. |
| Evaluations.InitialLookupUnaffectedByInsert | EnglesSoft-main/modelo/aprendiz/EvaluacionModelo.js:108-110 | Reading the initial evaluation after inserting the final row finds the same row as before the insert. |
| Evaluations.HasEvaluationOfKind | EnglesSoft-main/modelo/aprendiz/EvaluacionModelo.js:159-183 | True exactly when the student has an evaluation of the given type. |
| Evaluations.WithoutId | EnglesSoft-main/modelo/aprendiz/EvaluacionModelo.js:237-238 | The remaining rows are exactly the rows whose id differs from the deleted one. |
| Evaluations.DeleteEvaluation | EnglesSoft-main/modelo/aprendiz/EvaluacionModelo.js:236-246 | Deleting succeeds whether or not the id exists (only a failing query fails it, changing nothing), removes only rows with that id, and touches nothing else. |
| Evaluations.DeleteAbsentIsNoOp | EnglesSoft-main/modelo/aprendiz/EvaluacionModelo.js:237-245 | Deleting an id no row carries leaves the rows unchanged. |
| Evaluations.DeleteIdempotent | EnglesSoft-main/modelo/aprendiz/EvaluacionModelo.js:237-245 | Deleting the same id twice equals deleting it once. |
| Evaluations.WithoutIdKeepsOrder | EnglesSoft-main/modelo/aprendiz/EvaluacionModelo.js:237-238 | Removing rows keeps evaluation ids increasing. |
| Evaluations.DeletePreservesValid | EnglesSoft-main/modelo/aprendiz/EvaluacionModelo.js:237-245 | Deleting keeps the store invariant. |
| ProgressRoutes.LatestProgress | EnglesSoft-main/rutas/RutasProgreso.js:31-49 | The progress view is the student's record with the greatest id; it is not found exactly when the student is not a user (the inner join with `usuarios`) or has no record. |
| ProgressRoutes.Status | EnglesSoft-main/rutas/RutasProgreso.js:82-85 | The label is "En Progreso" or "Completado", and "Completado" exactly when there is a record whose final-evaluation id is set. |
| ProgressRoutes.CyclesOf | EnglesSoft-main/rutas/RutasProgreso.js:86-87 | The joined cycles of a user are exactly the records of that user, one per matching record (as many as there are). |
| ProgressRoutes.CyclesOfMultiplicity | EnglesSoft-main/rutas/RutasProgreso.js:86-87 | Each record occurs among a user's joined cycles as often as in the table when it is theirs, and never otherwise. |
| ProgressRoutes.CyclesOfKeepsOrder | EnglesSoft-main/rutas/RutasProgreso.js:86-87 | A user's joined cycles keep the table's increasing id order. |
| ProgressRoutes.RowsOf | EnglesSoft-main/rutas/RutasProgreso.js:86-87 | A user's summary rows carry each of their records, and a single row without a record exactly when they have none; there is one row per record, or one row when there is none. |
| ProgressRoutes.RowsOfNoRepeats | EnglesSoft-main/rutas/RutasProgreso.js:86-87 | With distinct progress ids, no summary row of a user repeats. |
| ProgressRoutes.Summary | EnglesSoft-main/rutas/RutasProgreso.js:67-93 | Every summary row belongs to a listed user; every record of a listed user appears; a user without records appears with none, and only such users do; there are at least as many rows as users. |
| ProgressRoutes.SummaryNoRepeats | EnglesSoft-main/rutas/RutasProgreso.js:86-97 | With distinct users and progress ids no summary row repeats, so `count: resultados.length` is the number of (user, record) pairs plus one per user without records. |
| ProgressRoutes.Statistics | EnglesSoft-main/rutas/RutasProgreso.js:110-132 | The student count is the number of users; the initial and final counts are the numbers of evaluation rows of type `inicial` and `final`; the completed count is the number of progress records with a final-evaluation id; completed cycles are 0 exactly when all are open. |
| Seqs.CountIsCardinality | EnglesSoft-main/rutas/RutasProgreso.js:120-132 | The `COUNT(*) ... WHERE` fold equals the number of positions whose row satisfies the condition. |
| ProgressRoutes.CompletedPlusOpen | EnglesSoft-main/rutas/RutasProgreso.js:130-132 | Completed cycles (final id set) and open cycles together count every progress record once. |
| ProgressRoutes.FirstOfKind | EnglesSoft-main/rutas/RutasProgreso.js:239-241 | The chosen evaluation is the first of the student's rows of that type; there is none exactly when the student has no row of that type. |
| ProgressRoutes.Difference | EnglesSoft-main/rutas/RutasProgreso.js:246-252 | Each of the five deltas added to the initial value gives the final value. |
| ProgressRoutes.Compare | EnglesSoft-main/rutas/RutasProgreso.js:227-253 | Not found exactly when the student has no initial and no final evaluation; each entry is the student's first row of its type (`find`), and absent exactly when there is no such row; deltas exist exactly when both entries exist, each equal to final minus initial. |
| Workflow.InitialEvaluationShowsInProgress | EnglesSoft-main/modelo/aprendiz/EvaluacionModelo.js:81-91 | After an initial evaluation whose progress insert succeeds, the student's progress view is the new cycle, started by the new evaluation, labelled "En Progreso". |
| Workflow.FinalEvaluationShowsCompleted | EnglesSoft-main/modelo/aprendiz/EvaluacionModelo.js:114-121 | The record a successful final evaluation closes carries the new evaluation id and is labelled "Completado". |
| Workflow.FirstOfKindUnique | EnglesSoft-main/rutas/RutasProgreso.js:239-241 | When a student has exactly one row of a type, that row is the comparison's entry. |
| Workflow.FirstInitialOpensSingleCycle | EnglesSoft-main/modelo/aprendiz/EvaluacionModelo.js:81-91 | A student's first initial evaluation leaves them with one open cycle that refers to that evaluation. |
| Workflow.ViewOfSingleCycle | EnglesSoft-main/rutas/RutasProgreso.js:37-39 | A student with a single record sees that record in the progress view. |
| Workflow.CompareOfSinglePair | EnglesSoft-main/rutas/RutasProgreso.js:239-252 | A student whose only evaluations are one initial and one final is compared on exactly that pair. |
| Workflow.FinalSucceedsOnSingleCycle | EnglesSoft-main/modelo/aprendiz/EvaluacionModelo.js:94-121 | From a single open cycle whose initial row is present, a final evaluation succeeds. |
| Workflow.FinalClosesSingleCycleProgress | EnglesSoft-main/modelo/aprendiz/EvaluacionModelo.js:97-121 | From a single open cycle, a final evaluation replaces that record by its closed form with `mejora` = final total − initial total, and appends the final row. |
| Workflow.CloseKeepsSingleCycle | EnglesSoft-main/modelo/aprendiz/EvaluacionModelo.js:114-121 | Closing a student's only record leaves it their only record, now closed with the given `mejora`. |
| Workflow.ClosedPairAgreesWithComparison | EnglesSoft-main/rutas/RutasProgreso.js:239-252 | A student whose single cycle is closed with the difference of their only initial and final evaluations sees "Completado" with a `mejora` equal to the comparison's total delta. |
| Workflow.FinalClosesSingleCycleStore | EnglesSoft-main/modelo/aprendiz/EvaluacionModelo.js:97-121 | From a single open cycle, a final evaluation succeeds and closes it with `mejora` = final total − initial total. |
| Workflow.FinalClosesSingleCycle | EnglesSoft-main/modelo/aprendiz/EvaluacionModelo.js:108-111 | After that close, the progress view is "Completado" and its `mejora` equals the comparison's total delta. |
| Workflow.SingleCycleAgreesWithComparison | EnglesSoft-main/modelo/aprendiz/EvaluacionModelo.js:108-111 | For a student with no history, an initial then a final evaluation store a `mejora` equal to the total delta of the comparison view. |
| Workflow.CompareNotFoundIffNoEvaluations | EnglesSoft-main/rutas/RutasProgreso.js:232-237 | The comparison is not found exactly when the student has neither an initial nor a final evaluation. |
| Workflow.CompareHasDeltaIffBothKinds | EnglesSoft-main/rutas/RutasProgreso.js:245-253 | The comparison has deltas exactly when the student has both an initial and a final evaluation. |

## Left out

- HTTP wiring is not modelled: Express routes, status codes, JSON envelopes,
  CORS, static files and the 404/500 middleware. The user routes are thin
  handlers over a user model that is not part of this model.
- SQL text and joins are not modelled. The progress view returns the progress
  record without the joined user fields, evaluation fields or level names. The
  inner join with `usuarios` is modelled only by its filtering: a student who is
  not in the users list gets no view.
  `obtenerPorId` is covered only by its row lookup (`Records.FindEvaluation`).
- Dates are not modelled: `CURDATE()` for `fecha_inicio` and
  `fecha_finalizacion`, `DATEDIFF` (`dias_formacion`) and `fecha_evaluacion`.
  The completion date is set exactly when the final-evaluation id is set.
- The reads ordered by `fecha_evaluacion` are not modelled:
  `obtenerPorEstudiante` and `obtenerTodas`. The ordering needs timestamps,
  and they have no logic beyond the query.
- `obtenerNiveles` and `obtenerEstadisticas` are not part of the modelled core.
  Each is a plain query with no logic, ordered by `puntaje_minimo`.
- The averages are not modelled: `AVG` and the `Math.round(promedio || 0)` of
  the statistics are floating-point averages. Only `totalEstudiantes`,
  `evaluacionesIniciales`, `evaluacionesFinales` and `progresosCompletos` are.
- The per-level distribution of the statistics (`distribucionNiveles`) is not
  modelled. It is a `COUNT(e.id_evaluacion)` per level from a left join of
  `niveles_ingles` with `evaluaciones`, grouped and ordered by the database.
- The summary is not sorted by user name. Users are given as a list of
  document ids.
- JavaScript coercion by `x || 0` is not modelled: a string sub-score
  concatenates, and a non-number gives NaN. Sub-scores are optional integers.
  `Math.round` on doubles is modelled exactly over the reals. That is exact
  for sums of realistic sub-scores.
- Failures of the database calls inside `actualizarProgreso` are not
  modelled: the select, the initial-score read and the update. They would
  propagate like the modelled errors.
- Query failures on the read side are not modelled: every progress route
  answers 500 when its query fails, and `tieneEvaluacionInicial` and
  `tieneEvaluacionFinal` throw. Reads of the in-memory store cannot fail, so
  `LatestProgress`, `Summary`, `Statistics`, `Compare` and
  `HasEvaluationOfKind` have no such outcome.
- Error message texts are not modelled. Errors are datatype values.
- Concurrency and atomicity are not modelled: concurrent requests, races
  between two cycles of one student, and the missing transaction around the
  insert and the progress update. Calls are applied one at a time.
- Evaluations.DeleteEvaluation: does not model foreign-key effects of deleting
  an evaluation that a progress record refers to, because the schema is not
  part of this model. Progress records are left as they are.
- Ordering among non-unique rows is decided by the database. The first
  matching row in table order is taken, and the level table is only assumed
  non-overlapping where a lemma says so.

=== FILE: evaluations.dfy ===
/** The evaluation recorder: scoring, level resolution, the evaluation insert
    and the progress side effect of a new evaluation; and the admin delete. */
module Evaluations {
  import opened Wrappers
  import opened Seqs
  import opened Scoring
  import opened Levels
  import opened Records
  import opened ProgressTracker

  /** The database calls whose failure the recorder handles explicitly. */
  datatype Faults = Faults(
    levelQueryFails: bool,      // the level lookup throws: the level falls back to "A1"
    evaluationInsertFails: bool, // the evaluation insert throws: the whole call fails
    progressInsertFails: bool)   // opening a cycle throws: logged and swallowed

  const NoFaults: Faults := Faults(false, false, false)

  /** The request body: sub-scores and notes may be omitted. */
  datatype EvaluationInput = EvaluationInput(
    student: string,
    kind: string,
    reading: Option<int>,
    writing: Option<int>,
    listening: Option<int>,
    speaking: Option<int>,
    notes: Option<string>)

  /** What a successful creation returns to the caller. */
  datatype Created = Created(id: nat, level: string, total: int)

  datatype EvaluationError =
    | InsertFailed
    | DeleteFailed
    | ProgressFailed(cause: CycleError)

  /** The store after a call, whether or not the call succeeded, and its outcome. */
  datatype Outcome<T> = Outcome(store: Store, result: Result<T, EvaluationError>)

  /** The row the recorder inserts for `input`, with id `id`. */
  function NewRow(levels: seq<Level>, input: EvaluationInput, id: nat, levelQueryFails: bool): (row: Evaluation)
    ensures row.id == id && row.student == input.student && row.kind == input.kind
    ensures row.total == TotalScore(input.reading, input.writing, input.listening, input.speaking)
    ensures row.level == DetermineLevel(levels, levelQueryFails, row.total)
    ensures row.reading == (if input.reading.Some? then input.reading.value else 0)
    ensures row.writing == (if input.writing.Some? then input.writing.value else 0)
    ensures row.listening == (if input.listening.Some? then input.listening.value else 0)
    ensures row.speaking == (if input.speaking.Some? then input.speaking.value else 0)
    ensures row.notes == (if input.notes.Some? then input.notes.value else "")
  {
    var total := TotalScore(input.reading, input.writing, input.listening, input.speaking);
    Evaluation(
      id, input.student, input.kind, total, DetermineLevel(levels, levelQueryFails, total),
      SubScore(input.reading), SubScore(input.writing), SubScore(input.listening), SubScore(input.speaking),
      input.notes.GetOr(""))
  }

  /** The store with `row` appended under the next evaluation id. */
  function Insert(st: Store, row: Evaluation): Store {
    st.(evaluations := st.evaluations + [row], nextEvaluationId := st.nextEvaluationId + 1)
  }

  /** Creating an evaluation. The row is inserted first; then an initial
      evaluation opens a progress cycle (a failure there is swallowed) and a final
      one closes the newest open cycle (a failure there fails the call, but the
      row stays, since nothing is rolled back). */
  function CreateEvaluation(st: Store, input: EvaluationInput, faults: Faults): (out: Outcome<Created>)
    ensures faults.evaluationInsertFails ==> out == Outcome(st, Err(InsertFailed))
    ensures !faults.evaluationInsertFails ==>
              && out.store.evaluations == st.evaluations + [NewRow(st.levels, input, st.nextEvaluationId, faults.levelQueryFails)]
              && out.store.nextEvaluationId == st.nextEvaluationId + 1
              && out.store.levels == st.levels
    ensures out.result.Ok? ==>
              var row := NewRow(st.levels, input, st.nextEvaluationId, faults.levelQueryFails);
              out.result.value == Created(row.id, row.level, row.total)
    ensures out.result.Err? ==> out.store.progress == st.progress && out.store.nextProgressId == st.nextProgressId
    ensures input.kind != InitialKind && input.kind != FinalKind ==>
              out.store.progress == st.progress && (out.result.Ok? <==> !faults.evaluationInsertFails)
    ensures input.kind == InitialKind ==> (out.result.Ok? <==> !faults.evaluationInsertFails)
    ensures input.kind == InitialKind && !faults.evaluationInsertFails && faults.progressInsertFails ==>
              out.store.progress == st.progress
    ensures input.kind == InitialKind && !faults.evaluationInsertFails && !faults.progressInsertFails ==>
              && out.store.progress
                 == st.progress + [ProgressRecord(st.nextProgressId, input.student, st.nextEvaluationId,
                                                  NewRow(st.levels, input, st.nextEvaluationId, faults.levelQueryFails).level,
                                                  None, None, None)]
              && out.store.nextProgressId == st.nextProgressId + 1
              && IsOpenFor(out.store.progress[|st.progress|], input.student)
    ensures input.kind == FinalKind && !faults.evaluationInsertFails ==>
              (out.result == Err(ProgressFailed(NoOpenCycle))
               <==> forall j :: 0 <= j < |st.progress| ==> !IsOpenFor(st.progress[j], input.student))
    ensures input.kind == FinalKind && !faults.evaluationInsertFails ==>
              (out.result.Ok? <==>
                 && LatestOpen(st.progress, input.student).Some?
                 && exists k :: 0 <= k < |out.store.evaluations|
                                && out.store.evaluations[k].id
                                   == st.progress[LatestOpen(st.progress, input.student).value].initialEvaluation)
  {
    if faults.evaluationInsertFails then Outcome(st, Err(InsertFailed))
    else
      var id := st.nextEvaluationId;
      var row := NewRow(st.levels, input, id, faults.levelQueryFails);
      var inserted := Insert(st, row);
      var created := Created(id, row.level, row.total);
      if input.kind == InitialKind then
        Outcome(OpenCycle(inserted, input.student, id, row.level, faults.progressInsertFails), Ok(created))
      else if input.kind == FinalKind then
        match CloseCycle(inserted, input.student, id, row.level, row.total)
        case Err(e) => Outcome(inserted, Err(ProgressFailed(e)))
        case Ok(closed) => Outcome(closed, Ok(created))
      else
        Outcome(inserted, Ok(created))
  }

  /** Appending the new row keeps the store valid. */
  lemma InsertPreservesValid(st: Store, row: Evaluation)
    requires Valid(st) && row.id == st.nextEvaluationId
    ensures Valid(Insert(st, row))
  {
  }

  /** Creating an evaluation keeps the store valid and moves every progress
      record along the no-progress -> open -> closed state machine only. */
  lemma CreatePreservesValid(st: Store, input: EvaluationInput, faults: Faults)
    requires Valid(st)
    ensures Valid(CreateEvaluation(st, input, faults).store)
    ensures Evolves(st.progress, CreateEvaluation(st, input, faults).store.progress)
  {
    var out := CreateEvaluation(st, input, faults);
    if !faults.evaluationInsertFails {
      var id := st.nextEvaluationId;
      var row := NewRow(st.levels, input, id, faults.levelQueryFails);
      var inserted := Insert(st, row);
      InsertPreservesValid(st, row);
      if input.kind == InitialKind {
        assert out.store == OpenCycle(inserted, input.student, id, row.level, faults.progressInsertFails);
        OpenCyclePreservesValid(inserted, input.student, id, row.level, faults.progressInsertFails);
        if !faults.progressInsertFails {
          OpenCycleAddsOpenCycle(inserted, input.student, id, row.level);
        }
      } else if input.kind == FinalKind {
        var closed := CloseCycle(inserted, input.student, id, row.level, row.total);
        CloseCyclePreservesValid(inserted, input.student, id, row.level, row.total);
        if closed.Ok? {
          assert out.store == closed.value;
          CloseCycleClosesOneCycle(inserted, input.student, id, row.level, row.total);
        } else {
          assert out.store == inserted;
        }
      } else {
        assert out.store == inserted;
      }
    }
  }

  /** An initial evaluation whose progress insert succeeds adds exactly one open
      cycle for its student and completes none. */
  lemma InitialEvaluationOpensOneCycle(st: Store, input: EvaluationInput, faults: Faults)
    requires input.kind == InitialKind
    requires !faults.evaluationInsertFails && !faults.progressInsertFails
    ensures var st' := CreateEvaluation(st, input, faults).store;
            && Evolves(st.progress, st'.progress)
            && CountWhere(st'.progress, OpenCyclesOf(input.student)) == CountWhere(st.progress, OpenCyclesOf(input.student)) + 1
            && CountWhere(st'.progress, IsClosed) == CountWhere(st.progress, IsClosed)
  {
    var row := NewRow(st.levels, input, st.nextEvaluationId, faults.levelQueryFails);
    assert CreateEvaluation(st, input, faults).store == OpenCycle(Insert(st, row), input.student, row.id, row.level, false);
    OpenCycleAddsOpenCycle(Insert(st, row), input.student, row.id, row.level);
  }

  /** A successful final evaluation is the insert followed by a successful close. */
  lemma FinalEvaluationIsInsertThenClose(st: Store, input: EvaluationInput, faults: Faults)
    requires input.kind == FinalKind
    requires CreateEvaluation(st, input, faults).result.Ok?
    ensures var row := NewRow(st.levels, input, st.nextEvaluationId, faults.levelQueryFails);
            var closed := CloseCycle(Insert(st, row), input.student, row.id, row.level, row.total);
            closed.Ok? && CreateEvaluation(st, input, faults).store == closed.value
  {
  }

  /** A successful final evaluation turns exactly one of its student's open
      cycles into a completed one. */
  lemma FinalEvaluationCompletesOneCycle(st: Store, input: EvaluationInput, faults: Faults)
    requires Valid(st) && input.kind == FinalKind
    requires CreateEvaluation(st, input, faults).result.Ok?
    ensures var st' := CreateEvaluation(st, input, faults).store;
            && Evolves(st.progress, st'.progress)
            && CountWhere(st'.progress, OpenCyclesOf(input.student)) + 1 == CountWhere(st.progress, OpenCyclesOf(input.student))
            && CountWhere(st'.progress, IsClosed) == CountWhere(st.progress, IsClosed) + 1
  {
    FinalEvaluationIsInsertThenClose(st, input, faults);
    var row := NewRow(st.levels, input, st.nextEvaluationId, faults.levelQueryFails);
    InsertPreservesValid(st, row);
    CloseCycleClosesOneCycle(Insert(st, row), input.student, row.id, row.level, row.total);
  }

  /** The cycle a successful final evaluation closes is the student's newest
      open one; it records the new evaluation, its level, and the new total minus
      the total of the cycle's initial evaluation. Every other record is kept. */
  lemma FinalEvaluationClosesNewestOpen(st: Store, input: EvaluationInput, faults: Faults)
    requires Valid(st) && input.kind == FinalKind
    requires CreateEvaluation(st, input, faults).result.Ok?
    ensures LatestOpen(st.progress, input.student).Some?
    ensures var i := LatestOpen(st.progress, input.student).value;
            FindEvaluation(st.evaluations, st.progress[i].initialEvaluation).Some?
    ensures var i := LatestOpen(st.progress, input.student).value;
            var initial := FindEvaluation(st.evaluations, st.progress[i].initialEvaluation).value;
            var total := TotalScore(input.reading, input.writing, input.listening, input.speaking);
            CreateEvaluation(st, input, faults).store.progress
            == st.progress[i := Closed(st.progress[i], st.nextEvaluationId,
                                       DetermineLevel(st.levels, faults.levelQueryFails, total),
                                       total - initial.total)]
  {
    FinalEvaluationIsInsertThenClose(st, input, faults);
    var row := NewRow(st.levels, input, st.nextEvaluationId, faults.levelQueryFails);
    var inserted := Insert(st, row);
    InsertPreservesValid(st, row);
    CloseCycleClosesNewestOpen(inserted, input.student, row.id, row.level, row.total);
    assert inserted.progress == st.progress;
    var i := LatestOpen(st.progress, input.student).value;
    InitialLookupUnaffectedByInsert(st, row, st.progress[i].initialEvaluation);
  }

  /** A final evaluation for a student with an open cycle whose initial
      evaluation row is still there succeeds; `FinalEvaluationClosesNewestOpen`
      then says which cycle it closes and how. */
  lemma FinalEvaluationWithOpenCycleSucceeds(st: Store, input: EvaluationInput, faults: Faults)
    requires input.kind == FinalKind && !faults.evaluationInsertFails
    requires LatestOpen(st.progress, input.student).Some?
    requires FindEvaluation(st.evaluations, st.progress[LatestOpen(st.progress, input.student).value].initialEvaluation).Some?
    ensures CreateEvaluation(st, input, faults).result.Ok?
  {
    var i := LatestOpen(st.progress, input.student).value;
    var initial := FindEvaluation(st.evaluations, st.progress[i].initialEvaluation).value;
    var k :| 0 <= k < |st.evaluations| && st.evaluations[k] == initial;
    assert CreateEvaluation(st, input, faults).store.evaluations[k] == initial;
  }

  /** Looking up an existing id is unaffected by appending a row with a fresh id. */
  lemma InitialLookupUnaffectedByInsert(st: Store, row: Evaluation, id: nat)
    requires Valid(st) && row.id == st.nextEvaluationId && id < st.nextEvaluationId
    ensures FindEvaluation(Insert(st, row).evaluations, id) == FindEvaluation(st.evaluations, id)
  {
    var es := st.evaluations;
    var es' := es + [row];
    match FirstWhere(es', (e: Evaluation) => e.id == id)
    case None =>
      assert forall j :: 0 <= j < |es| ==> es'[j] == es[j];
    case Some(k) =>
      assert k < |es|;
      assert forall j :: 0 <= j <= k ==> es'[j] == es[j];
  }

  /** Whether the student has an evaluation of the given kind. */
  function HasEvaluationOfKind(es: seq<Evaluation>, student: string, kind: string): (b: bool)
    ensures b <==> exists k :: 0 <= k < |es| && es[k].student == student && es[k].kind == kind
  {
    CountWhere(es, (e: Evaluation) => IsOfKind(e, student, kind)) > 0
  }

  /** `DELETE FROM evaluaciones WHERE id_evaluacion = id` on the rows `es`. */
  function WithoutId(es: seq<Evaluation>, id: nat): (r: seq<Evaluation>)
    ensures forall e :: e in r <==> e in es && e.id != id
    ensures |r| <= |es|
  {
    if |es| == 0 then []
    else (if es[0].id == id then [] else [es[0]]) + WithoutId(es[1..], id)
  }

  /** Deleting an evaluation. It reports success whether or not a row had that
      id; only a failing query makes it fail, leaving the store unchanged. */
  function DeleteEvaluation(st: Store, id: nat, deleteFails: bool): (out: Outcome<()>)
    ensures out.result.Ok? <==> !deleteFails
    ensures deleteFails ==> out.store == st
    ensures out.store.progress == st.progress && out.store.levels == st.levels
    ensures out.store.nextEvaluationId == st.nextEvaluationId && out.store.nextProgressId == st.nextProgressId
    ensures !deleteFails ==> forall e :: e in out.store.evaluations <==> e in st.evaluations && e.id != id
  {
    if deleteFails then Outcome(st, Err(DeleteFailed))
    else Outcome(st.(evaluations := WithoutId(st.evaluations, id)), Ok(()))
  }

  /** Deleting an id no row carries leaves the rows as they were. */
  lemma {:induction false} DeleteAbsentIsNoOp(es: seq<Evaluation>, id: nat)
    requires forall k :: 0 <= k < |es| ==> es[k].id != id
    ensures WithoutId(es, id) == es
  {
    if |es| > 0 {
      DeleteAbsentIsNoOp(es[1..], id);
    }
  }

  /** Deleting twice is deleting once. */
  lemma DeleteIdempotent(st: Store, id: nat)
    ensures var once := DeleteEvaluation(st, id, false).store;
            DeleteEvaluation(once, id, false).store == once
  {
    var once := WithoutId(st.evaluations, id);
    DeleteAbsentIsNoOp(once, id);
  }

  /** Removing rows keeps ids increasing. */
  lemma {:induction false} WithoutIdKeepsOrder(es: seq<Evaluation>, id: nat)
    requires EvaluationIdsIncreasing(es)
    ensures EvaluationIdsIncreasing(WithoutId(es, id))
  {
    if |es| > 0 {
      WithoutIdKeepsOrder(es[1..], id);
      var rest := WithoutId(es[1..], id);
      forall e | e in rest
        ensures es[0].id < e.id
      {
        var k :| 0 <= k < |es[1..]| && es[1..][k] == e;
        assert es[k + 1] == e;
      }
    }
  }

  /** Deleting keeps the store valid. */
  lemma DeletePreservesValid(st: Store, id: nat, deleteFails: bool)
    requires Valid(st)
    ensures Valid(DeleteEvaluation(st, id, deleteFails).store)
  {
    WithoutIdKeepsOrder(st.evaluations, id);
    var r := WithoutId(st.evaluations, id);
    forall k | 0 <= k < |r|
      ensures r[k].id < st.nextEvaluationId
    {
      assert r[k] in st.evaluations;
    }
  }
}

=== FILE: levels.dfy ===
/** The level resolver: a score is mapped to the code of the level-table row
    whose inclusive range contains it, falling back to "A1". */
module Levels {
  import opened Wrappers
  import opened Seqs

  /** One row of the read-only level table: a code and its inclusive score range. */
  datatype Level = Level(code: string, min: int, max: int)

  /** The fallback code used whenever no usable code is found. */
  const DefaultLevel: string := "A1"

  /** `score BETWEEN min AND max`. */
  predicate Covers(l: Level, score: int) {
    l.min <= score <= l.max
  }

  /** No score is covered by two different rows. */
  predicate Disjoint(a: Level, b: Level) {
    a.max < b.min || b.max < a.min || a.max < a.min || b.max < b.min
  }

  predicate NonOverlapping(levels: seq<Level>) {
    forall i, j :: 0 <= i < j < |levels| ==> Disjoint(levels[i], levels[j])
  }

  /** The level for `score`: the code of the first covering row, or "A1" when
      the lookup query fails, no row covers the score, or that row's code is empty. */
  function DetermineLevel(levels: seq<Level>, queryFails: bool, score: int): (code: string)
    ensures code != ""
    ensures queryFails ==> code == DefaultLevel
    ensures (forall i :: 0 <= i < |levels| ==> !Covers(levels[i], score)) ==> code == DefaultLevel
    ensures code != DefaultLevel ==>
              exists i :: 0 <= i < |levels| && Covers(levels[i], score) && levels[i].code == code
    ensures forall i :: 0 <= i < |levels| && !queryFails && Covers(levels[i], score)
                        && (forall j :: 0 <= j < i ==> !Covers(levels[j], score))
                        ==> code == (if levels[i].code == "" then DefaultLevel else levels[i].code)
  {
    if queryFails then DefaultLevel
    else
      match FirstWhere(levels, (l: Level) => Covers(l, score))
      case None => DefaultLevel
      case Some(i) => if levels[i].code == "" then DefaultLevel else levels[i].code
  }

  /** In a non-overlapping table, any row covering the score decides the level. */
  lemma LevelOfCoveringRow(levels: seq<Level>, i: nat, score: int)
    requires NonOverlapping(levels)
    requires i < |levels| && Covers(levels[i], score) && levels[i].code != ""
    ensures DetermineLevel(levels, false, score) == levels[i].code
  {
    forall j | 0 <= j < i
      ensures !Covers(levels[j], score)
    {
      assert Disjoint(levels[j], levels[i]);
    }
  }

  /** An example table of inclusive ranges. */
  const ExampleTable: seq<Level> :=
    [Level("A2", 0, 39), Level("B1", 40, 69), Level("B2", 70, 89), Level("C1", 90, 100)]

  /** A score of 75 resolves to "B2" in the example table. */
  lemma ExampleLevel()
    ensures DetermineLevel(ExampleTable, false, 75) == "B2"
  {
    LevelOfCoveringRow(ExampleTable, 2, 75);
  }
}

=== FILE: progress_routes.dfy ===
/** The read side over the progress data: one student's latest cycle, the
    status label of a cycle, the all-students summary, the general counts and
    the initial-versus-final comparison. */
module ProgressRoutes {
  import opened Wrappers
  import opened Seqs
  import opened Records

  /** Answered with 404 by the routes. */
  datatype RouteError = NotFound

  const InProgress: string := "En Progreso"
  const Completed: string := "Completado"

  /** The progress view of one student: the record with the largest id. The
      query joins the users table, so a student who is not a user has no view. */
  function LatestProgress(users: seq<string>, ps: seq<ProgressRecord>, student: string)
    : (r: Result<ProgressRecord, RouteError>)
    ensures r.Err? <==> student !in users || forall j :: 0 <= j < |ps| ==> ps[j].student != student
    ensures r.Ok? ==> r.value in ps && r.value.student == student
    ensures r.Ok? ==> forall j :: 0 <= j < |ps| && ps[j].student == student ==> ps[j].id <= r.value.id
  {
    if student !in users then Err(NotFound)
    else
      match NewestWhere(ps, OwnedBy(student))
      case None => Err(NotFound)
      case Some(i) => Ok(ps[i])
  }

  /** The status label of a summary row. The summary is a left join from
      users, so a user with no cycle has no final-evaluation id either and reads
      as in progress. */
  function Status(cycle: Option<ProgressRecord>): (status: string)
    ensures status == InProgress || status == Completed
    ensures status == Completed <==> cycle.Some? && IsClosed(cycle.value)
  {
    if cycle.None? || cycle.value.finalEvaluation.None? then InProgress else Completed
  }

  /** A summary row: a user and one of their cycles, or none. */
  datatype SummaryRow = SummaryRow(student: string, cycle: Option<ProgressRecord>)

  /** Whether a record belongs to `student`. */
  function OwnedBy(student: string): ProgressRecord -> bool {
    (p: ProgressRecord) => p.student == student
  }

  /** The cycles of one student, in table order: every record of theirs as
      often as it occurs, and nothing else. */
  function CyclesOf(ps: seq<ProgressRecord>, student: string): (r: seq<ProgressRecord>)
    ensures forall p :: p in r <==> p in ps && p.student == student
    ensures |r| == CountWhere(ps, OwnedBy(student))
  {
    if |ps| == 0 then []
    else
      var last := |ps| - 1;
      var init := ps[..last];
      assert ps == init + [ps[last]];
      var rest := CyclesOf(init, student);
      assert CountWhere(ps, OwnedBy(student)) == CountWhere(init, OwnedBy(student)) + if ps[last].student == student then 1 else 0;
      if ps[last].student == student then rest + [ps[last]]
      else rest
  }

  /** A record occurs among a student's cycles as often as in the table when
      it is theirs, and not at all otherwise. */
  lemma {:induction false} CyclesOfMultiplicity(ps: seq<ProgressRecord>, student: string, p: ProgressRecord)
    ensures multiset(CyclesOf(ps, student))[p] == if p.student == student then multiset(ps)[p] else 0
  {
    if |ps| > 0 {
      var last := |ps| - 1;
      var init := ps[..last];
      assert ps == init + [ps[last]];
      CyclesOfMultiplicity(init, student, p);
    }
  }

  /** A student's cycles keep the table's increasing id order. */
  lemma {:induction false} CyclesOfKeepsOrder(ps: seq<ProgressRecord>, student: string)
    ensures ProgressIdsIncreasing(ps) ==> ProgressIdsIncreasing(CyclesOf(ps, student))
  {
    if |ps| > 0 && ProgressIdsIncreasing(ps) {
      var last := |ps| - 1;
      var init := ps[..last];
      assert ProgressIdsIncreasing(init);
      CyclesOfKeepsOrder(init, student);
      var rest := CyclesOf(init, student);
      if ps[last].student == student {
        forall i | 0 <= i < |rest| ensures rest[i].id < ps[last].id {
          assert rest[i] in init;
          EarlierIdBelowLast(ps, rest[i]);
        }
        AppendAboveKeepsOrder(rest, ps[last]);
      }
    }
  }

  /** With increasing ids, a record before the last has a smaller id. */
  lemma EarlierIdBelowLast(ps: seq<ProgressRecord>, p: ProgressRecord)
    requires ProgressIdsIncreasing(ps) && |ps| > 0 && p in ps[..|ps| - 1]
    ensures p.id < ps[|ps| - 1].id
  {
    var k :| 0 <= k < |ps| - 1 && ps[..|ps| - 1][k] == p;
    assert ps[k] == p;
  }

  /** Appending a record above every id keeps ids increasing. */
  lemma AppendAboveKeepsOrder(ps: seq<ProgressRecord>, p: ProgressRecord)
    requires ProgressIdsIncreasing(ps)
    requires forall i :: 0 <= i < |ps| ==> ps[i].id < p.id
    ensures ProgressIdsIncreasing(ps + [p])
  {
  }

  /** The rows the summary shows for one user: one per cycle, or a single row
      without a cycle when they have none. */
  function RowsOf(ps: seq<ProgressRecord>, student: string): (rows: seq<SummaryRow>)
    ensures forall row :: row in rows ==> row.student == student
    ensures forall p :: p in ps && p.student == student ==> SummaryRow(student, Some(p)) in rows
    ensures forall row :: row in rows && row.cycle.Some? ==> row.cycle.value in ps
    ensures SummaryRow(student, None) in rows <==> forall p :: p in ps ==> p.student != student
    ensures var n := CountWhere(ps, OwnedBy(student)); |rows| == if n == 0 then 1 else n
  {
    var mine := CyclesOf(ps, student);
    if |mine| == 0 then [SummaryRow(student, None)]
    else
      var rows := seq(|mine|, k requires 0 <= k < |mine| => SummaryRow(student, Some(mine[k])));
      assert forall p :: p in mine ==> SummaryRow(student, Some(p)) in rows by {
        forall p | p in mine ensures SummaryRow(student, Some(p)) in rows {
          var k :| 0 <= k < |mine| && mine[k] == p;
          assert rows[k] == SummaryRow(student, Some(p));
        }
      }
      assert mine[0] in mine;
      assert forall row :: row in rows ==> row.cycle.Some?;
      rows
  }

  /** With increasing progress ids a user's summary rows are all different. */
  lemma RowsOfNoRepeats(ps: seq<ProgressRecord>, student: string)
    requires ProgressIdsIncreasing(ps)
    ensures NoRepeats(RowsOf(ps, student))
  {
    var mine := CyclesOf(ps, student);
    CyclesOfKeepsOrder(ps, student);
    var rows := RowsOf(ps, student);
    if |mine| > 0 {
      forall i, j | 0 <= i < j < |rows| ensures rows[i] != rows[j] {
        assert rows[i].cycle == Some(mine[i]) && rows[j].cycle == Some(mine[j]);
      }
    }
  }

  /** The summary of all users: every user with each of their cycles, and
      a user without any cycle once, with no cycle. */
  function Summary(users: seq<string>, ps: seq<ProgressRecord>): (rows: seq<SummaryRow>)
    ensures forall row :: row in rows ==> row.student in users
    ensures forall row :: row in rows && row.cycle.Some? ==> row.cycle.value in ps && row.cycle.value.student == row.student
    ensures forall u, p :: u in users && p in ps && p.student == u ==> SummaryRow(u, Some(p)) in rows
    ensures forall u :: u in users && (forall p :: p in ps ==> p.student != u) ==> SummaryRow(u, None) in rows
    ensures forall row :: row in rows && row.cycle.None? ==> forall p :: p in ps ==> p.student != row.student
    ensures |rows| >= |users|
  {
    if |users| == 0 then []
    else
      var head := RowsOf(ps, users[0]);
      var rest := Summary(users[1..], ps);
      assert forall u :: u in users ==> u == users[0] || u in users[1..];
      assert forall u :: u in users[1..] ==> u in users;
      head + rest
  }

  /** With distinct users and increasing progress ids no summary row appears
      twice, so the rows reported (`count`) are exactly the pairs `Summary`
      describes. */
  lemma {:induction false} SummaryNoRepeats(users: seq<string>, ps: seq<ProgressRecord>)
    requires NoRepeats(users) && ProgressIdsIncreasing(ps)
    ensures NoRepeats(Summary(users, ps))
  {
    if |users| > 0 {
      var head := RowsOf(ps, users[0]);
      var rest := Summary(users[1..], ps);
      assert NoRepeats(users[1..]);
      SummaryNoRepeats(users[1..], ps);
      RowsOfNoRepeats(ps, users[0]);
      assert users[0] !in users[1..];
      var rows := head + rest;
      forall i, j | 0 <= i < j < |rows| ensures rows[i] != rows[j] {
        if i < |head| <= j {
          assert rows[i] in head && rows[j] in rest;
        }
      }
    }
  }

  /** The integer counts of the general statistics. */
  datatype Counts = Counts(
    students: nat,
    initialEvaluations: nat,
    finalEvaluations: nat,
    completedCycles: nat)

  /** Evaluation types over all students, as the statistics count them. */
  predicate IsInitialEvaluation(e: Evaluation) {
    e.kind == InitialKind
  }

  predicate IsFinalEvaluation(e: Evaluation) {
    e.kind == FinalKind
  }

  /** The general counts: users, initial and final evaluations, and completed
      cycles (records whose final-evaluation id is set), each the number of
      positions in its table that meet the condition. */
  function Statistics(users: seq<string>, st: Store): (c: Counts)
    ensures c.students == |users|
    ensures c.initialEvaluations == |set j: nat | j < |st.evaluations| && st.evaluations[j].kind == InitialKind|
    ensures c.finalEvaluations == |set j: nat | j < |st.evaluations| && st.evaluations[j].kind == FinalKind|
    ensures c.completedCycles == |set j: nat | j < |st.progress| && st.progress[j].finalEvaluation.Some?|
    ensures c.initialEvaluations + c.finalEvaluations <= |st.evaluations|
    ensures c.completedCycles == 0 <==> forall j :: 0 <= j < |st.progress| ==> IsOpen(st.progress[j])
    ensures c.completedCycles == |st.progress| <==> forall j :: 0 <= j < |st.progress| ==> IsClosed(st.progress[j])
  {
    var initials := CountWhere(st.evaluations, IsInitialEvaluation);
    var finals := CountWhere(st.evaluations, IsFinalEvaluation);
    CountDisjoint(st.evaluations, IsInitialEvaluation, IsFinalEvaluation);
    CountIsCardinality(st.evaluations, IsInitialEvaluation);
    CountIsCardinality(st.evaluations, IsFinalEvaluation);
    CountIsCardinality(st.progress, IsClosed);
    assert IndicesWhere(st.evaluations, IsInitialEvaluation)
           == set j: nat | j < |st.evaluations| && st.evaluations[j].kind == InitialKind;
    assert IndicesWhere(st.evaluations, IsFinalEvaluation)
           == set j: nat | j < |st.evaluations| && st.evaluations[j].kind == FinalKind;
    assert IndicesWhere(st.progress, IsClosed)
           == set j: nat | j < |st.progress| && st.progress[j].finalEvaluation.Some?;
    Counts(|users|, initials, finals, CountWhere(st.progress, IsClosed))
  }

  /** Completed and open cycles partition the progress table. */
  lemma CompletedPlusOpen(ps: seq<ProgressRecord>)
    ensures CountWhere(ps, IsClosed) + CountWhere(ps, IsOpen) == |ps|
  {
    CountComplement(ps, IsClosed, IsOpen);
  }

  /** The five differences of the comparison, each final minus initial. */
  datatype Delta = Delta(total: int, reading: int, writing: int, listening: int, speaking: int)

  datatype Comparison = Comparison(
    initial: Option<Evaluation>,
    final: Option<Evaluation>,
    delta: Option<Delta>)

  /** The first evaluation of `student` of the given kind. */
  function FirstOfKind(es: seq<Evaluation>, student: string, kind: string): (r: Option<Evaluation>)
    ensures r.None? <==> forall j :: 0 <= j < |es| ==> !IsOfKind(es[j], student, kind)
    ensures r.Some? ==> exists i :: 0 <= i < |es| && es[i] == r.value && IsOfKind(es[i], student, kind)
                                    && forall j :: 0 <= j < i ==> !IsOfKind(es[j], student, kind)
  {
    match FirstWhere(es, (e: Evaluation) => IsOfKind(e, student, kind))
    case None => None
    case Some(i) => Some(es[i])
  }

  /** Final minus initial, for the total and for each skill. */
  function Difference(initial: Evaluation, final: Evaluation): (d: Delta)
    ensures initial.total + d.total == final.total
    ensures initial.reading + d.reading == final.reading
    ensures initial.writing + d.writing == final.writing
    ensures initial.listening + d.listening == final.listening
    ensures initial.speaking + d.speaking == final.speaking
  {
    Delta(final.total - initial.total, final.reading - initial.reading, final.writing - initial.writing,
          final.listening - initial.listening, final.speaking - initial.speaking)
  }

  /** The initial-versus-final comparison of one student: the first initial and
      the first final evaluation, and their differences when both exist. It is
      not found when the student has neither. */
  function Compare(es: seq<Evaluation>, student: string): (r: Result<Comparison, RouteError>)
    ensures r.Err? <==> forall j :: 0 <= j < |es| && es[j].student == student
                                    ==> es[j].kind != InitialKind && es[j].kind != FinalKind
    ensures r.Ok? ==> (r.value.initial.Some? || r.value.final.Some?)
    ensures r.Ok? ==> (r.value.delta.Some? <==> r.value.initial.Some? && r.value.final.Some?)
    ensures r.Ok? ==> (r.value.initial.None? <==> forall j :: 0 <= j < |es| ==> !IsOfKind(es[j], student, InitialKind))
    ensures r.Ok? ==> (r.value.final.None? <==> forall j :: 0 <= j < |es| ==> !IsOfKind(es[j], student, FinalKind))
    ensures r.Ok? && r.value.initial.Some? ==>
              exists i :: 0 <= i < |es| && es[i] == r.value.initial.value && IsOfKind(es[i], student, InitialKind)
                          && forall j :: 0 <= j < i ==> !IsOfKind(es[j], student, InitialKind)
    ensures r.Ok? && r.value.final.Some? ==>
              exists i :: 0 <= i < |es| && es[i] == r.value.final.value && IsOfKind(es[i], student, FinalKind)
                          && forall j :: 0 <= j < i ==> !IsOfKind(es[j], student, FinalKind)
    ensures r.Ok? && r.value.delta.Some? ==>
              var d := r.value.delta.value;
              var a := r.value.initial.value;
              var b := r.value.final.value;
              && d.total == b.total - a.total
              && d.reading == b.reading - a.reading
              && d.writing == b.writing - a.writing
              && d.listening == b.listening - a.listening
              && d.speaking == b.speaking - a.speaking
  {
    var initial := FirstOfKind(es, student, InitialKind);
    var final := FirstOfKind(es, student, FinalKind);
    if initial.None? && final.None? then Err(NotFound)
    else
      var delta := if initial.Some? && final.Some? then Some(Difference(initial.value, final.value)) else None;
      Ok(Comparison(initial, final, delta))
  }
}

=== FILE: progress_tracker.dfy ===
/** The progress cycle of a student: an initial evaluation opens a progress
    record, a final evaluation closes the newest open one and records the
    improvement. */
module ProgressTracker {
  import opened Wrappers
  import opened Seqs
  import opened Records

  /** Why a final evaluation could not close a cycle. */
  datatype CycleError =
    | NoOpenCycle               // the student has no progress record without a final evaluation
    | InitialEvaluationMissing  // the cycle's initial evaluation row is gone, so its total cannot be read

  /** The record a final evaluation closes: the student's open record with the
      largest id. */
  function LatestOpen(ps: seq<ProgressRecord>, student: string): (r: Option<nat>)
    ensures r.Some? ==> r.value < |ps| && IsOpenFor(ps[r.value], student)
    ensures r.Some? ==> forall j :: 0 <= j < |ps| && IsOpenFor(ps[j], student) ==> ps[j].id <= ps[r.value].id
    ensures r.None? <==> forall j :: 0 <= j < |ps| ==> !IsOpenFor(ps[j], student)
  {
    NewestWhere(ps, (p: ProgressRecord) => IsOpenFor(p, student))
  }

  /** Opening a cycle for an initial evaluation. An insert that fails is
      swallowed: the store is left as it was and no error is reported. */
  function OpenCycle(st: Store, student: string, evaluationId: nat, level: string, insertFails: bool): (st': Store)
    ensures st'.evaluations == st.evaluations && st'.levels == st.levels
    ensures st'.nextEvaluationId == st.nextEvaluationId
    ensures insertFails ==> st' == st
    ensures !insertFails ==>
              && |st'.progress| == |st.progress| + 1
              && st'.progress[..|st.progress|] == st.progress
              && st'.nextProgressId == st.nextProgressId + 1
    ensures !insertFails ==>
              var p := st'.progress[|st.progress|];
              && p.id == st.nextProgressId && p.student == student
              && p.initialEvaluation == evaluationId && p.initialLevel == level
              && IsOpen(p) && p.finalLevel.None? && p.improvement.None?
  {
    if insertFails then st
    else
      var p := ProgressRecord(st.nextProgressId, student, evaluationId, level, None, None, None);
      st.(progress := st.progress + [p], nextProgressId := st.nextProgressId + 1)
  }

  /** `UPDATE progreso_estudiante SET ... WHERE id_progreso = id`: every record
      carrying that id is closed. */
  function CloseWhereId(ps: seq<ProgressRecord>, id: nat, finalId: nat, finalLevel: string, improvement: int)
    : (ps': seq<ProgressRecord>)
    ensures |ps'| == |ps|
    ensures forall k :: 0 <= k < |ps| && ps[k].id != id ==> ps'[k] == ps[k]
    ensures forall k :: 0 <= k < |ps| && ps[k].id == id ==> ps'[k] == Closed(ps[k], finalId, finalLevel, improvement)
  {
    seq(|ps|, k requires 0 <= k < |ps| =>
      if ps[k].id == id then Closed(ps[k], finalId, finalLevel, improvement) else ps[k])
  }

  /** Closing the student's newest open cycle with the final evaluation
      `evaluationId`; the improvement is the final total minus the total of the
      cycle's initial evaluation. On failure nothing is written. */
  function CloseCycle(st: Store, student: string, evaluationId: nat, finalLevel: string, finalScore: int)
    : (r: Result<Store, CycleError>)
    ensures r == Err(NoOpenCycle) <==> forall j :: 0 <= j < |st.progress| ==> !IsOpenFor(st.progress[j], student)
    ensures r.Ok? <==>
              && LatestOpen(st.progress, student).Some?
              && exists k :: 0 <= k < |st.evaluations|
                             && st.evaluations[k].id == st.progress[LatestOpen(st.progress, student).value].initialEvaluation
    ensures r.Ok? ==>
              && r.value.evaluations == st.evaluations && r.value.levels == st.levels
              && r.value.nextEvaluationId == st.nextEvaluationId
              && r.value.nextProgressId == st.nextProgressId
              && |r.value.progress| == |st.progress|
  {
    match LatestOpen(st.progress, student)
    case None => Err(NoOpenCycle)
    case Some(i) =>
      var cycle := st.progress[i];
      match FindEvaluation(st.evaluations, cycle.initialEvaluation)
      case None => Err(InitialEvaluationMissing)
      case Some(initial) =>
        Ok(st.(progress := CloseWhereId(st.progress, cycle.id, evaluationId, finalLevel, finalScore - initial.total)))
  }

  /** With unique ids, updating by the id of record `i` changes record `i` alone. */
  lemma CloseWhereIdIsSingleUpdate(ps: seq<ProgressRecord>, i: nat, finalId: nat, finalLevel: string, improvement: int)
    requires ProgressIdsIncreasing(ps) && i < |ps|
    ensures CloseWhereId(ps, ps[i].id, finalId, finalLevel, improvement)
            == ps[i := Closed(ps[i], finalId, finalLevel, improvement)]
  {
    var ps' := CloseWhereId(ps, ps[i].id, finalId, finalLevel, improvement);
    forall k | 0 <= k < |ps| && k != i
      ensures ps'[k] == ps[k]
    {
      assert ps[k].id != ps[i].id by {
        if k < i { assert ps[k].id < ps[i].id; } else { assert ps[i].id < ps[k].id; }
      }
    }
  }

  /** A successful close changes exactly one record: the student's newest open
      cycle, which gains the final evaluation, the final level and the
      improvement over its initial evaluation's total. */
  lemma CloseCycleClosesNewestOpen(st: Store, student: string, evaluationId: nat, finalLevel: string, finalScore: int)
    requires Valid(st)
    requires CloseCycle(st, student, evaluationId, finalLevel, finalScore).Ok?
    ensures LatestOpen(st.progress, student).Some?
    ensures var i := LatestOpen(st.progress, student).value;
            var initial := FindEvaluation(st.evaluations, st.progress[i].initialEvaluation);
            && initial.Some?
            && CloseCycle(st, student, evaluationId, finalLevel, finalScore).value.progress
               == st.progress[i := Closed(st.progress[i], evaluationId, finalLevel, finalScore - initial.value.total)]
  {
    var i := LatestOpen(st.progress, student).value;
    var initial := FindEvaluation(st.evaluations, st.progress[i].initialEvaluation).value;
    CloseWhereIdIsSingleUpdate(st.progress, i, evaluationId, finalLevel, finalScore - initial.total);
  }

  /** Opening a cycle keeps the store valid. */
  lemma OpenCyclePreservesValid(st: Store, student: string, evaluationId: nat, level: string, insertFails: bool)
    requires Valid(st) && evaluationId < st.nextEvaluationId
    ensures Valid(OpenCycle(st, student, evaluationId, level, insertFails))
  {
  }

  /** Closing a cycle keeps the store valid. */
  lemma CloseCyclePreservesValid(st: Store, student: string, evaluationId: nat, finalLevel: string, finalScore: int)
    requires Valid(st)
    ensures var r := CloseCycle(st, student, evaluationId, finalLevel, finalScore);
            r.Ok? ==> Valid(r.value)
  {
    if CloseCycle(st, student, evaluationId, finalLevel, finalScore).Ok? {
      CloseCycleClosesNewestOpen(st, student, evaluationId, finalLevel, finalScore);
    }
  }

  /** The per-record state machine no-progress -> open -> closed: no record is
      removed, a new record starts open, a closed record never changes, and an
      open record can only become closed, keeping its identity, student and
      initial evaluation. */
  predicate Evolves(ps: seq<ProgressRecord>, ps': seq<ProgressRecord>) {
    && |ps| <= |ps'|
    && (forall k :: 0 <= k < |ps| ==>
         || ps'[k] == ps[k]
         || (&& IsOpen(ps[k]) && IsClosed(ps'[k])
             && ps'[k].id == ps[k].id && ps'[k].student == ps[k].student
             && ps'[k].initialEvaluation == ps[k].initialEvaluation
             && ps'[k].initialLevel == ps[k].initialLevel))
    && (forall k :: |ps| <= k < |ps'| ==> IsOpen(ps'[k]))
  }

  /** The open cycles of one student. */
  function OpenCyclesOf(student: string): ProgressRecord -> bool {
    (p: ProgressRecord) => IsOpenFor(p, student)
  }

  /** An opened cycle is a new open record and leaves the others alone. */
  lemma OpenCycleAddsOpenCycle(st: Store, student: string, evaluationId: nat, level: string)
    ensures var st' := OpenCycle(st, student, evaluationId, level, false);
            && Evolves(st.progress, st'.progress)
            && CountWhere(st'.progress, OpenCyclesOf(student)) == CountWhere(st.progress, OpenCyclesOf(student)) + 1
            && CountWhere(st'.progress, IsClosed) == CountWhere(st.progress, IsClosed)
  {
    var p := ProgressRecord(st.nextProgressId, student, evaluationId, level, None, None, None);
    CountAppend(st.progress, p, OpenCyclesOf(student));
    CountAppend(st.progress, p, IsClosed);
  }

  /** A successful close turns exactly one of the student's open cycles into a
      completed one. */
  lemma CloseCycleClosesOneCycle(st: Store, student: string, evaluationId: nat, finalLevel: string, finalScore: int)
    requires Valid(st)
    requires CloseCycle(st, student, evaluationId, finalLevel, finalScore).Ok?
    ensures var st' := CloseCycle(st, student, evaluationId, finalLevel, finalScore).value;
            && Evolves(st.progress, st'.progress)
            && CountWhere(st'.progress, OpenCyclesOf(student)) + 1 == CountWhere(st.progress, OpenCyclesOf(student))
            && CountWhere(st'.progress, IsClosed) == CountWhere(st.progress, IsClosed) + 1
  {
    CloseCycleClosesNewestOpen(st, student, evaluationId, finalLevel, finalScore);
    var ps := st.progress;
    var i := LatestOpen(ps, student).value;
    var initial := FindEvaluation(st.evaluations, ps[i].initialEvaluation).value;
    var q := Closed(ps[i], evaluationId, finalLevel, finalScore - initial.total);
    var ps' := CloseCycle(st, student, evaluationId, finalLevel, finalScore).value.progress;
    assert ps' == ps[i := q];
    assert IsOpenFor(ps[i], student) && !IsOpenFor(q, student) && IsClosed(q);
    CountUpdate(ps, i, q, OpenCyclesOf(student));
    CountUpdate(ps, i, q, IsClosed);
    assert Evolves(ps, ps[i := q]);
  }
}

=== FILE: records.dfy ===
/** The in-memory store that stands in for the database: the evaluations
    table, the progress table and the read-only level table, together with the
    auto-increment counters that hand out their identifiers. */
module Records {
  import opened Wrappers
  import opened Seqs
  import opened Levels

  /** The evaluation types that drive the progress cycle; any other string is
      stored but leaves progress alone. */
  const InitialKind: string := "inicial"
  const FinalKind: string := "final"

  /** One row of the evaluations table. */
  datatype Evaluation = Evaluation(
    id: nat,
    student: string,
    kind: string,
    total: int,
    level: string,
    reading: int,
    writing: int,
    listening: int,
    speaking: int,
    notes: string)

  /** One row of the progress table: a cycle opened by an initial evaluation
      and, once closed, completed by a final one. */
  datatype ProgressRecord = ProgressRecord(
    id: nat,
    student: string,
    initialEvaluation: nat,
    initialLevel: string,
    finalEvaluation: Option<nat>,
    finalLevel: Option<string>,
    improvement: Option<int>)

  /** Whether `e` is an evaluation of `student` of the given type. */
  predicate IsOfKind(e: Evaluation, student: string, kind: string) {
    e.student == student && e.kind == kind
  }

  /** A cycle is open while its final-evaluation id is unset. */
  predicate IsOpen(p: ProgressRecord) {
    p.finalEvaluation.None?
  }

  predicate IsClosed(p: ProgressRecord) {
    p.finalEvaluation.Some?
  }

  predicate IsOpenFor(p: ProgressRecord, student: string) {
    p.student == student && IsOpen(p)
  }

  /** The fields set at closing are set together. */
  predicate WellShaped(p: ProgressRecord) {
    && (p.finalEvaluation.Some? <==> p.finalLevel.Some?)
    && (p.finalEvaluation.Some? <==> p.improvement.Some?)
  }

  /** The record `p` after closing it with the final evaluation `finalId`. */
  function Closed(p: ProgressRecord, finalId: nat, finalLevel: string, improvement: int): ProgressRecord {
    p.(finalEvaluation := Some(finalId), finalLevel := Some(finalLevel), improvement := Some(improvement))
  }

  datatype Store = Store(
    evaluations: seq<Evaluation>,
    progress: seq<ProgressRecord>,
    levels: seq<Level>,
    nextEvaluationId: nat,
    nextProgressId: nat)

  predicate EvaluationIdsIncreasing(es: seq<Evaluation>) {
    forall i, j :: 0 <= i < j < |es| ==> es[i].id < es[j].id
  }

  predicate EvaluationIdsBelow(es: seq<Evaluation>, bound: nat) {
    forall i :: 0 <= i < |es| ==> es[i].id < bound
  }

  predicate ProgressIdsIncreasing(ps: seq<ProgressRecord>) {
    forall i, j :: 0 <= i < j < |ps| ==> ps[i].id < ps[j].id
  }

  predicate ProgressIdsBelow(ps: seq<ProgressRecord>, bound: nat) {
    forall i :: 0 <= i < |ps| ==> ps[i].id < bound
  }

  /** What the database guarantees: identifiers are auto-increment primary
      keys, so rows appear in increasing id order below the next id to hand out;
      a progress record gains its closing fields all at once; and it refers to
      an initial evaluation id that has already been handed out. */
  predicate Valid(st: Store) {
    && EvaluationIdsIncreasing(st.evaluations)
    && EvaluationIdsBelow(st.evaluations, st.nextEvaluationId)
    && ProgressIdsIncreasing(st.progress)
    && ProgressIdsBelow(st.progress, st.nextProgressId)
    && (forall k :: 0 <= k < |st.progress| ==> WellShaped(st.progress[k]))
    && (forall k :: 0 <= k < |st.progress| ==> st.progress[k].initialEvaluation < st.nextEvaluationId)
  }

  /** `SELECT ... WHERE id_evaluacion = ?` and its first row. */
  function FindEvaluation(es: seq<Evaluation>, id: nat): (r: Option<Evaluation>)
    ensures r.Some? ==> r.value in es && r.value.id == id
    ensures r.None? <==> forall k :: 0 <= k < |es| ==> es[k].id != id
  {
    match FirstWhere(es, (e: Evaluation) => e.id == id)
    case None => None
    case Some(k) => Some(es[k])
  }

  /** `ORDER BY id_progreso DESC LIMIT 1` over the records `keep` accepts:
      the index of an accepted record whose id is largest. */
  function NewestWhere(ps: seq<ProgressRecord>, keep: ProgressRecord -> bool): (r: Option<nat>)
    ensures r.Some? ==> r.value < |ps| && keep(ps[r.value])
    ensures r.Some? ==> forall j :: 0 <= j < |ps| && keep(ps[j]) ==> ps[j].id <= ps[r.value].id
    ensures r.None? <==> forall j :: 0 <= j < |ps| ==> !keep(ps[j])
  {
    if |ps| == 0 then None
    else
      var last := |ps| - 1;
      var rest := NewestWhere(ps[..last], keep);
      assert forall j :: 0 <= j < last ==> ps[j] == ps[..last][j];
      if keep(ps[last]) && (rest.None? || ps[rest.value].id <= ps[last].id) then Some(last)
      else rest
  }

  /** With increasing ids, the newest accepted record is the last accepted one
      in table order. */
  lemma NewestIsLast(ps: seq<ProgressRecord>, keep: ProgressRecord -> bool)
    requires ProgressIdsIncreasing(ps)
    requires NewestWhere(ps, keep).Some?
    ensures forall j :: NewestWhere(ps, keep).value < j < |ps| ==> !keep(ps[j])
  {
  }
}

=== FILE: scoring.dfy ===
/** The total score of an evaluation: the rounded average of the four skill
    sub-scores (reading, writing, listening, speaking), a missing sub-score
    counting as 0. */
module Scoring {
  import opened Wrappers

  /** A sub-score as stored: an omitted one is stored as 0. */
  function SubScore(s: Option<int>): int {
    s.GetOr(0)
  }

  function SubScoreSum(reading: Option<int>, writing: Option<int>,
                       listening: Option<int>, speaking: Option<int>): int {
    SubScore(reading) + SubScore(writing) + SubScore(listening) + SubScore(speaking)
  }

  /** JavaScript's `Math.round` on a real argument: round to nearest, ties upward. */
  function RoundHalfUp(x: real): int {
    (x + 0.5).Floor
  }

  /** The total: the integer nearest to a quarter of the sum, a tie going up.
      Computed without reals, since the sum is an integer. */
  function TotalScore(reading: Option<int>, writing: Option<int>,
                      listening: Option<int>, speaking: Option<int>): (total: int)
    ensures var sum := SubScoreSum(reading, writing, listening, speaking);
            4 * total - 2 <= sum < 4 * total + 2
  {
    (SubScoreSum(reading, writing, listening, speaking) + 2) / 4
  }

  /** The integer formula is exactly `Math.round(sum / 4)`. */
  lemma TotalIsRoundedAverage(reading: Option<int>, writing: Option<int>,
                              listening: Option<int>, speaking: Option<int>)
    ensures TotalScore(reading, writing, listening, speaking)
            == RoundHalfUp(SubScoreSum(reading, writing, listening, speaking) as real / 4.0)
  {
    var sum := SubScoreSum(reading, writing, listening, speaking);
    var t := TotalScore(reading, writing, listening, speaking);
    var x := sum as real / 4.0 + 0.5;
    assert 4 * t <= sum + 2 < 4 * t + 4;
    assert x == (sum + 2) as real / 4.0;
    assert t as real <= x < t as real + 1.0;
  }

  predicate InPercentRange(s: Option<int>) {
    s.None? || 0 <= s.value <= 100
  }

  /** With every given sub-score in [0, 100], the total is in [0, 100] too. */
  lemma TotalWithinBounds(reading: Option<int>, writing: Option<int>,
                          listening: Option<int>, speaking: Option<int>)
    requires InPercentRange(reading) && InPercentRange(writing)
    requires InPercentRange(listening) && InPercentRange(speaking)
    ensures 0 <= TotalScore(reading, writing, listening, speaking) <= 100
  {
  }
}

=== FILE: seqs.dfy ===
/** Generic queries over sequences, used as the in-memory stand-in for
    `SELECT ... LIMIT 1` and `SELECT COUNT(*) ... WHERE`. */
module Seqs {
  import opened Wrappers

  /** Index of the first element of `s` that `keep` accepts, if any. */
  function FirstWhere<T>(s: seq<T>, keep: T -> bool): (r: Option<nat>)
    ensures r.Some? ==> r.value < |s| && keep(s[r.value])
    ensures r.Some? ==> forall j :: 0 <= j < r.value ==> !keep(s[j])
    ensures r.None? <==> forall j :: 0 <= j < |s| ==> !keep(s[j])
  {
    if |s| == 0 then None
    else if keep(s[0]) then Some(0)
    else
      match FirstWhere(s[1..], keep)
      case None => None
      case Some(k) =>
        assert forall j :: 1 <= j < |s| ==> s[j] == s[1..][j - 1];
        Some(k + 1)
  }

  /** Number of elements of `s` that `keep` accepts. */
  function CountWhere<T>(s: seq<T>, keep: T -> bool): (n: nat)
    ensures n <= |s|
    ensures n == 0 <==> forall j :: 0 <= j < |s| ==> !keep(s[j])
    ensures n == |s| <==> forall j :: 0 <= j < |s| ==> keep(s[j])
  {
    if |s| == 0 then 0
    else
      var init := s[..|s| - 1];
      assert forall j :: 0 <= j < |s| - 1 ==> s[j] == init[j];
      CountWhere(init, keep) + (if keep(s[|s| - 1]) then 1 else 0)
  }

  /** Appending one element adds one to the count exactly when it is accepted. */
  lemma {:induction false} CountAppend<T>(s: seq<T>, x: T, keep: T -> bool)
    ensures CountWhere(s + [x], keep) == CountWhere(s, keep) + (if keep(x) then 1 else 0)
  {
    assert (s + [x])[..|s|] == s;
  }

  /** Replacing one element changes the count only by that element's contribution. */
  lemma {:induction false} CountUpdate<T>(s: seq<T>, i: nat, x: T, keep: T -> bool)
    requires i < |s|
    ensures CountWhere(s[i := x], keep)
            == CountWhere(s, keep) - (if keep(s[i]) then 1 else 0) + (if keep(x) then 1 else 0)
  {
    var last := |s| - 1;
    if i == last {
      assert s[i := x][..last] == s[..last];
    } else {
      assert s[i := x][..last] == s[..last][i := x];
      CountUpdate(s[..last], i, x, keep);
    }
  }

  /** Counting a predicate and its complement covers every element exactly once. */
  lemma {:induction false} CountComplement<T>(s: seq<T>, keep: T -> bool, drop: T -> bool)
    requires forall x :: keep(x) <==> !drop(x)
    ensures CountWhere(s, keep) + CountWhere(s, drop) == |s|
  {
    if |s| > 0 {
      CountComplement(s[..|s| - 1], keep, drop);
    }
  }

  /** Two predicates that never both hold count at most one element each. */
  lemma {:induction false} CountDisjoint<T>(s: seq<T>, a: T -> bool, b: T -> bool)
    requires forall x :: !(a(x) && b(x))
    ensures CountWhere(s, a) + CountWhere(s, b) <= |s|
  {
    if |s| > 0 {
      CountDisjoint(s[..|s| - 1], a, b);
    }
  }

  /** The positions of the elements `keep` accepts. */
  function IndicesWhere<T>(s: seq<T>, keep: T -> bool): set<nat> {
    set j: nat | j < |s| && keep(s[j])
  }

  /** Counting agrees with the number of accepted positions. */
  lemma {:induction false} CountIsCardinality<T>(s: seq<T>, keep: T -> bool)
    ensures CountWhere(s, keep) == |IndicesWhere(s, keep)|
  {
    if |s| > 0 {
      var last := |s| - 1;
      var init := s[..last];
      CountIsCardinality(init, keep);
      var before := IndicesWhere(init, keep);
      assert last !in before;
      assert IndicesWhere(s, keep) == if keep(s[last]) then before + {last} else before;
    }
  }

  /** No element occurs twice. */
  predicate NoRepeats<T(==)>(s: seq<T>) {
    forall i, j :: 0 <= i < j < |s| ==> s[i] != s[j]
  }
}

=== FILE: workflow.dfy ===
/** Properties that connect the write side (creating evaluations) with the
    read side (the progress view, status labels and the comparison). */
module Workflow {
  import opened Wrappers
  import opened Scoring
  import opened Levels
  import opened Records
  import opened ProgressTracker
  import opened Evaluations
  import opened ProgressRoutes

  /** After an initial evaluation whose progress insert succeeds, the
      student's progress view shows the new cycle, in progress, started by
      the new evaluation. */
  lemma InitialEvaluationShowsInProgress(st: Store, users: seq<string>, input: EvaluationInput, faults: Faults)
    requires Valid(st) && input.kind == InitialKind && input.student in users
    requires !faults.evaluationInsertFails && !faults.progressInsertFails
    ensures var view := LatestProgress(users, CreateEvaluation(st, input, faults).store.progress, input.student);
            && view.Ok?
            && view.value.initialEvaluation == st.nextEvaluationId
            && view.value.id == st.nextProgressId
            && Status(Some(view.value)) == InProgress
  {
    var ps' := CreateEvaluation(st, input, faults).store.progress;
    var n := |st.progress|;
    assert ps'[..n] == st.progress;
    forall j | 0 <= j < |ps'|
      ensures ps'[j].id <= st.nextProgressId
    {
      if j < n {
        assert ps'[j] == st.progress[j];
      }
    }
    var view := LatestProgress(users, ps', input.student);
    var k :| 0 <= k < |ps'| && ps'[k] == view.value;
    assert view.value.id >= st.nextProgressId;
    assert forall j :: 0 <= j < n ==> ps'[j].id < st.nextProgressId;
    assert k == n;
  }

  /** The record a successful final evaluation closes reads as completed. */
  lemma FinalEvaluationShowsCompleted(st: Store, input: EvaluationInput, faults: Faults)
    requires Valid(st) && input.kind == FinalKind
    requires CreateEvaluation(st, input, faults).result.Ok?
    ensures LatestOpen(st.progress, input.student).Some?
    ensures var i := LatestOpen(st.progress, input.student).value;
            var ps' := CreateEvaluation(st, input, faults).store.progress;
            && i < |ps'|
            && Status(Some(ps'[i])) == Completed
            && ps'[i].finalEvaluation == Some(st.nextEvaluationId)
  {
    FinalEvaluationClosesNewestOpen(st, input, faults);
  }

  /** With exactly one matching evaluation, that one is the first. */
  lemma FirstOfKindUnique(es: seq<Evaluation>, i: nat, student: string, kind: string)
    requires i < |es| && IsOfKind(es[i], student, kind)
    requires forall j :: 0 <= j < |es| && j != i ==> !IsOfKind(es[j], student, kind)
    ensures FirstOfKind(es, student, kind) == Some(es[i])
  {
  }

  predicate HasNoHistory(st: Store, student: string) {
    && (forall k :: 0 <= k < |st.evaluations| ==> st.evaluations[k].student != student)
    && (forall k :: 0 <= k < |st.progress| ==> st.progress[k].student != student)
  }

  /** The state after a student's first initial evaluation: their only cycle
      is open at index `n` and refers to `row1`, their only evaluation, which
      is the last row. */
  predicate SingleOpenCycle(st: Store, student: string, n: nat, row1: Evaluation) {
    && Valid(st)
    && n < |st.progress| && |st.evaluations| > 0 && st.evaluations[|st.evaluations| - 1] == row1
    && IsOfKind(row1, student, InitialKind)
    && (forall k :: 0 <= k < |st.progress| && st.progress[k].student == student ==> k == n)
    && IsOpenFor(st.progress[n], student)
    && FindEvaluation(st.evaluations, st.progress[n].initialEvaluation) == Some(row1)
    && (forall k :: 0 <= k < |st.evaluations| - 1 ==> st.evaluations[k].student != student)
  }

  /** A first initial evaluation opens the student's single cycle. */
  lemma FirstInitialOpensSingleCycle(st: Store, initial: EvaluationInput)
    requires Valid(st) && HasNoHistory(st, initial.student) && initial.kind == InitialKind
    ensures SingleOpenCycle(CreateEvaluation(st, initial, NoFaults).store, initial.student, |st.progress|,
                            NewRow(st.levels, initial, st.nextEvaluationId, false))
  {
    var student := initial.student;
    var st1 := CreateEvaluation(st, initial, NoFaults).store;
    var row1 := NewRow(st.levels, initial, st.nextEvaluationId, false);
    var n := |st.progress|;
    CreatePreservesValid(st, initial, NoFaults);
    assert st1.evaluations == st.evaluations + [row1];
    assert |st1.progress| == n + 1 && st1.progress[..n] == st.progress;
    assert forall k :: 0 <= k < n ==> st1.progress[k] == st.progress[k];
    assert st1.evaluations[|st.evaluations|] == row1;
    assert forall k :: 0 <= k < |st.evaluations| ==> st1.evaluations[k].id < row1.id;
  }

  /** A student with a single cycle sees that cycle in the progress view. */
  lemma ViewOfSingleCycle(users: seq<string>, ps: seq<ProgressRecord>, student: string, n: nat)
    requires student in users && n < |ps| && ps[n].student == student
    requires forall k :: 0 <= k < |ps| && ps[k].student == student ==> k == n
    ensures LatestProgress(users, ps, student) == Ok(ps[n])
  {
  }

  /** A student whose only evaluations are an initial one followed by a final
      one is compared on exactly that pair. */
  lemma CompareOfSinglePair(es: seq<Evaluation>, student: string, m: nat)
    requires m + 1 < |es|
    requires IsOfKind(es[m], student, InitialKind) && IsOfKind(es[m + 1], student, FinalKind)
    requires forall k :: 0 <= k < |es| && k != m && k != m + 1 ==> es[k].student != student
    ensures Compare(es, student) == Ok(Comparison(Some(es[m]), Some(es[m + 1]), Some(Difference(es[m], es[m + 1]))))
  {
    FirstOfKindUnique(es, m, student, InitialKind);
    FirstOfKindUnique(es, m + 1, student, FinalKind);
  }

  /** From a single open cycle, a final evaluation succeeds. */
  lemma FinalSucceedsOnSingleCycle(st1: Store, student: string, n: nat, row1: Evaluation, final: EvaluationInput)
    requires SingleOpenCycle(st1, student, n, row1)
    requires final.kind == FinalKind && final.student == student
    ensures CreateEvaluation(st1, final, NoFaults).result.Ok?
  {
    assert LatestOpen(st1.progress, student) == Some(n);
    assert FindEvaluation(st1.evaluations, st1.progress[n].initialEvaluation) == Some(row1);
    FinalEvaluationWithOpenCycleSucceeds(st1, final, NoFaults);
  }

  /** From a single open cycle, a final evaluation replaces that cycle by its
      closed form, with the difference of the two totals. */
  lemma FinalClosesSingleCycleProgress(st1: Store, student: string, n: nat, row1: Evaluation, final: EvaluationInput)
    requires SingleOpenCycle(st1, student, n, row1)
    requires final.kind == FinalKind && final.student == student
    ensures var out := CreateEvaluation(st1, final, NoFaults);
            var row2 := NewRow(st1.levels, final, st1.nextEvaluationId, false);
            && out.result.Ok?
            && out.store.progress
               == st1.progress[n := Closed(st1.progress[n], st1.nextEvaluationId, row2.level, row2.total - row1.total)]
            && out.store.evaluations == st1.evaluations + [row2]
  {
    FinalSucceedsOnSingleCycle(st1, student, n, row1, final);
    assert LatestOpen(st1.progress, student) == Some(n);
    assert FindEvaluation(st1.evaluations, st1.progress[n].initialEvaluation) == Some(row1);
    FinalEvaluationClosesNewestOpen(st1, final, NoFaults);
    var row2 := NewRow(st1.levels, final, st1.nextEvaluationId, false);
    assert row2.total == TotalScore(final.reading, final.writing, final.listening, final.speaking);
    assert row2.level == DetermineLevel(st1.levels, false, row2.total);
  }

  /** Closing the only record of a student leaves it their only record. */
  lemma CloseKeepsSingleCycle(ps: seq<ProgressRecord>, student: string, n: nat, finalId: nat, level: string, d: int)
    requires n < |ps|
    requires forall k :: 0 <= k < |ps| && ps[k].student == student ==> k == n
    ensures var ps' := ps[n := Closed(ps[n], finalId, level, d)];
            && IsClosed(ps'[n]) && ps'[n].improvement == Some(d)
            && forall k :: 0 <= k < |ps'| && ps'[k].student == student ==> k == n
  {
  }

  /** From a single open cycle, a final evaluation succeeds and closes that
      cycle with the difference of the two totals; the student has no other
      cycle and exactly these two evaluations. */
  lemma FinalClosesSingleCycleStore(st1: Store, student: string, n: nat, row1: Evaluation, final: EvaluationInput)
    requires SingleOpenCycle(st1, student, n, row1)
    requires final.kind == FinalKind && final.student == student
    ensures var out := CreateEvaluation(st1, final, NoFaults);
            var row2 := NewRow(st1.levels, final, st1.nextEvaluationId, false);
            && out.result.Ok?
            && n < |out.store.progress|
            && IsClosed(out.store.progress[n])
            && out.store.progress[n].improvement == Some(Difference(row1, row2).total)
            && (forall k :: 0 <= k < |out.store.progress| && out.store.progress[k].student == student ==> k == n)
            && out.store.evaluations == st1.evaluations + [row2]
  {
    FinalClosesSingleCycleProgress(st1, student, n, row1, final);
    var row2 := NewRow(st1.levels, final, st1.nextEvaluationId, false);
    CloseKeepsSingleCycle(st1.progress, student, n, st1.nextEvaluationId, row2.level, row2.total - row1.total);
  }

  /** A student whose single cycle is closed with the difference of their only
      two evaluations, an initial one followed by a final one, sees it completed
      with the improvement the comparison reports. */
  lemma ClosedPairAgreesWithComparison(users: seq<string>, ps: seq<ProgressRecord>, es: seq<Evaluation>,
                                       student: string, n: nat, m: nat)
    requires student in users && n < |ps| && ps[n].student == student && IsClosed(ps[n])
    requires forall k :: 0 <= k < |ps| && ps[k].student == student ==> k == n
    requires m + 1 < |es|
    requires IsOfKind(es[m], student, InitialKind) && IsOfKind(es[m + 1], student, FinalKind)
    requires forall k :: 0 <= k < |es| && k != m && k != m + 1 ==> es[k].student != student
    requires ps[n].improvement == Some(Difference(es[m], es[m + 1]).total)
    ensures var view := LatestProgress(users, ps, student);
            var cmp := Compare(es, student);
            && view.Ok? && Status(Some(view.value)) == Completed
            && cmp.Ok? && cmp.value.delta.Some?
            && view.value.improvement == Some(cmp.value.delta.value.total)
  {
    ViewOfSingleCycle(users, ps, student, n);
    CompareOfSinglePair(es, student, m);
  }

  /** From a single open cycle, a final evaluation closes it; the view then
      shows it completed with the improvement the comparison reports. */
  lemma FinalClosesSingleCycle(st1: Store, users: seq<string>, student: string, n: nat, row1: Evaluation,
                               final: EvaluationInput)
    requires SingleOpenCycle(st1, student, n, row1) && student in users
    requires final.kind == FinalKind && final.student == student
    ensures var out := CreateEvaluation(st1, final, NoFaults);
            var view := LatestProgress(users, out.store.progress, student);
            var cmp := Compare(out.store.evaluations, student);
            && out.result.Ok?
            && view.Ok? && Status(Some(view.value)) == Completed
            && cmp.Ok? && cmp.value.delta.Some?
            && view.value.improvement == Some(cmp.value.delta.value.total)
  {
    FinalClosesSingleCycleStore(st1, student, n, row1, final);
    var st2 := CreateEvaluation(st1, final, NoFaults).store;
    var es := st2.evaluations;
    var m := |st1.evaluations| - 1;
    var row2 := NewRow(st1.levels, final, st1.nextEvaluationId, false);
    assert es[m] == row1 && es[m + 1] == row2;
    assert forall k :: 0 <= k < m ==> es[k] == st1.evaluations[k];
    ClosedPairAgreesWithComparison(users, st2.progress, es, student, n, m);
  }

  /** For a student with no history, an initial evaluation followed by a final
      one completes a cycle whose recorded improvement equals the total
      difference the comparison view reports. */
  lemma SingleCycleAgreesWithComparison(st: Store, users: seq<string>, initial: EvaluationInput, final: EvaluationInput)
    requires Valid(st) && HasNoHistory(st, initial.student) && initial.student in users
    requires initial.kind == InitialKind && final.kind == FinalKind
    requires final.student == initial.student
    ensures var st1 := CreateEvaluation(st, initial, NoFaults).store;
            var out := CreateEvaluation(st1, final, NoFaults);
            var view := LatestProgress(users, out.store.progress, initial.student);
            var cmp := Compare(out.store.evaluations, initial.student);
            && out.result.Ok?
            && view.Ok? && Status(Some(view.value)) == Completed
            && cmp.Ok? && cmp.value.delta.Some?
            && view.value.improvement == Some(cmp.value.delta.value.total)
  {
    FirstInitialOpensSingleCycle(st, initial);
    FinalClosesSingleCycle(CreateEvaluation(st, initial, NoFaults).store, users, initial.student, |st.progress|,
                           NewRow(st.levels, initial, st.nextEvaluationId, false), final);
  }

  /** The comparison is not found exactly when the student has neither an
      initial nor a final evaluation. */
  lemma CompareNotFoundIffNoEvaluations(es: seq<Evaluation>, student: string)
    ensures Compare(es, student).Err?
            <==> !HasEvaluationOfKind(es, student, InitialKind) && !HasEvaluationOfKind(es, student, FinalKind)
  {
  }

  /** The comparison has deltas exactly when the student has both an initial
      and a final evaluation. */
  lemma CompareHasDeltaIffBothKinds(es: seq<Evaluation>, student: string)
    ensures (Compare(es, student).Ok? && Compare(es, student).value.delta.Some?)
            <==> HasEvaluationOfKind(es, student, InitialKind) && HasEvaluationOfKind(es, student, FinalKind)
  {
  }
}

=== FILE: wrappers.dfy ===
/** Optional values and results shared by the whole model. */
module Wrappers {

  /** A value that may be absent (a SQL NULL, a row that was not found). */
  datatype Option<+T> = None | Some(value: T) {

    /** The wrapped value, or `default` when absent (the source's `x || default`). */
    function GetOr(default: T): T {
      if Some? then value else default
    }
  }

  /** Either a value or the error that prevented computing it. */
  datatype Result<+R, +E> = Ok(value: R) | Err(error: E)
}
